=== FILE: README.md ===
# Categorizer, modelled in Dafny

`bin/categorizer.py` sorts the files of one folder into subfolders named after each file's
modification date rendered with a strftime format (default `%Y%m`). It runs in four steps:

1. It lists the folder's regular files. Hidden names and three system file names are skipped. A
   missing folder, or a path naming a file, exits with status 1.
2. It groups the files by time string. The groups keep the order in which each time string first
   appears.
3. It prints every group as a `key:` line followed by one `  - file` line per member.
4. Unless `-s` (simulation) is given, it creates each group's folder if nothing of that name
   exists, then renames every member into it.

The model is pure and functional:

- The folder is a finite map from names to `File` or `Subdir(children)` (`FileSystem`). The target
  path is `Missing`, a `RegularFile` or a `Directory`.
- The order in which os.listdir yields names is an input sequence.
- The strftime-of-mtime computation is an abstract function `stamp: string -> string`.
- The insertion-ordered dictionary `file_group` is a sequence of `Group(key, files)` with distinct
  keys (`Grouping`).
- `os.rename` is a total function that either yields the new map or fails with one of four
  faults. do_move stops at the first fault, and the model returns the state reached so far
  together with that fault (`Mover`).
- The whole run (`Categorizer.Categorize`) yields the printed lines, the target's final state and
  the exit status.

Modules: `Wrappers` (Option/Result), `Seqs` (distinctness and subsequences), `FileSystem`,
`Listing` (get_file_list), `Grouping` (group_by_date), `Report` (print_group_info), `Mover`
(do_move) and `Categorizer` (lines 140-143).

The comments at lines 21 and 26 say that a missing folder gives an empty list and that a file
gives a one-element list. The code instead prints a message and calls `exit(1)`. The model
follows the code.

A file named exactly like its own time string blocks its group. mkdir is skipped because the
name exists, and the first rename into it fails, so the run ends with status 1 after printing
the preview (`Categorizer.SelfNamedFileFails`). The model reproduces this as the code does it.
`Categorizer.RunMovesEveryFile` excludes such folders through its `Unobstructed` precondition.

## Model

| member | source | states |
|---|---|---|
| Listing.Eligible | bin/categorizer.py:32-34 | No ensures (a predicate): a name qualifies when it is an entry of the folder, is a regular file, is not one of the three system names and does not start with a dot. KeepFiles and FileList state the filter in its terms. |
| Listing.KeepFiles | bin/categorizer.py:31-35 | A name is kept exactly when it is listed, is a regular file, is not desktop.ini, thumbs.db or .DS_Store, and does not start with a dot. Each kept name occurs as often as it was listed. The result is a subsequence of the listing, in listing order, and stays duplicate-free when the listing is. |
| Listing.FileList | bin/categorizer.py:14-35 | It fails with NoSuchFolder exactly when the path is missing, and with IsAFile exactly when the path is a regular file. Otherwise the path is a directory and the result holds exactly its eligible listed names. |
| Listing.ExitMessage | bin/categorizer.py:22-29 | No ensures: the two messages printed before `exit(1)`. Categorizer.InvalidTargetExits states them for the whole run. |
| Grouping.Lookup | bin/categorizer.py:73 | No ensures: `file_group.get(k, [])`, the first group keyed `k`, or nothing. Grouping.Add and Grouping.LookupAt state its behaviour. |
| Grouping.Add | bin/categorizer.py:73 | `file_group[k] = file_group.get(k, []) + [f]`. The key order is unchanged when k was present; otherwise k is appended at the end. k's list gains f at its end, and every other key's list is unchanged. The multiset of all grouped files gains exactly f. |
| Grouping.Select | bin/categorizer.py:71-73 | The files with a given time string, as a subsequence of the input in input order. A file is selected iff it is in the input and has that time string. It is duplicate-free when the input is. |
| Grouping.GroupByDate | bin/categorizer.py:60-75 | No ensures: the loop at lines 71-73, filing each file in list order with Add. Its properties are stated by Grouping.GroupMembers, Grouping.GroupKeys, Grouping.GroupOrder, Grouping.GroupContents and Grouping.GroupCount. |
| Grouping.GroupMembers | bin/categorizer.py:69-75 | Each key's list is exactly the input's files with that time string, in input order. The groups together hold the input files as a multiset, so no file is lost or duplicated. |
| Grouping.GroupKeys | bin/categorizer.py:69-75 | The keys are distinct. A string is a key iff some input file has it as its time string. |
| Grouping.GroupOrder | bin/categorizer.py:69-75 | The keys appear in the order of their first occurrence among the input's time strings (dict insertion order). |
| Grouping.FirstStampedSpec | bin/categorizer.py:71-73 | No file before the first-occurrence position of a time string carries it. If the position is inside the input, the file there does carry it. |
| Grouping.GroupContents | bin/categorizer.py:71-73 | Every group is non-empty. Its list is the input's files with its key, as a subsequence of the input. |
| Grouping.GroupCount | bin/categorizer.py:69-75 | The number of groups equals the number of distinct time strings among the files. |
| Report.Header | bin/categorizer.py:85 | No ensures: the `k:` line that opens a group. Report.RenderLayout places it. |
| Report.Item | bin/categorizer.py:87 | No ensures: the `  - f` line of one member. Report.Items and Report.RenderLayout place it. |
| Report.Items | bin/categorizer.py:86-87 | One `  - f` line per member, in member order. |
| Report.Render | bin/categorizer.py:84-87 | The output has one line per group plus one per grouped file. |
| Report.RenderLayout | bin/categorizer.py:84-87 | Group i's `key:` header sits at the number of lines printed for groups 0..i-1. Its members' `  - f` lines follow it in member order, and the later groups come after them. |
| Report.RenderSuffix | bin/categorizer.py:84-87 | From the line where group i starts, the output is exactly the rendering of groups i onwards. |
| Report.PreviewSize | bin/categorizer.py:84-87 | For a grouping built by group_by_date, the preview has one line per distinct time string plus one per file. |
| Mover.MakeDir | bin/categorizer.py:99-100 | Afterwards `k` exists. An existing entry named `k`, directory or regular file, is kept as it was; otherwise `k` is a new empty directory. Every other name is unchanged. |
| Mover.Rename | bin/categorizer.py:104 | It succeeds exactly when `f` exists, `k` is a directory, `f` is not `k` itself and `k` holds no entry named `f`. On success `f` has left the top level, `k` holds its former children plus `f` with its contents, and every other name is unchanged. |
| Mover.MoveFiles | bin/categorizer.py:103-104 | No ensures: the members renamed in order, stopping at the first fault. Its properties are stated by Mover.MoveFilesPlaces, Mover.MoveFilesMissing, Mover.MoveFilesTaken and Mover.MoveFilesFrame. |
| Mover.MoveGroup | bin/categorizer.py:97-104 | No ensures: one iteration of the outer loop, making the directory and then moving the members. Its properties are stated by Mover.MoveGroupPlaces and Mover.KeyIsFile. |
| Mover.MoveAll | bin/categorizer.py:90-104 | No ensures: do_move, group after group, stopping at the first fault. Its properties are stated by Mover.MoveAllPlaces, Mover.MoveAllAppend, Mover.MoveAllFrame, Mover.BlockedKeyFails and Mover.BlockedGroupFails. |
| Mover.MoveFilesPlaces | bin/categorizer.py:103-104 | When every member is present, distinct, not the directory itself and not yet inside it, the loop completes without fault. Afterwards the members have left the top level and have joined the directory with their contents; nothing else changes. |
| Mover.MoveFilesMissing | bin/categorizer.py:103-104 | Suppose `k` is a directory and the members before position j are distinct, present, not `k` itself and not yet inside `k`. If member j does not exist, the loop stops there with SourceMissing, after the members before it have been moved. |
| Mover.MoveFilesTaken | bin/categorizer.py:103-104 | Suppose `k` is a directory and the members before position j are distinct, present, not `k` itself and not yet inside `k`. If member j exists, is not `k`, is not one of those earlier members, and its name is already taken inside `k`, the loop stops there with DestinationTaken, after the members before it have been moved. |
| Mover.KeyIsFile | bin/categorizer.py:99-104 | Suppose a group's key names an existing regular file and its first member exists. Then the key is not created, the first rename into it fails with NotADirectory, and the folder is unchanged. (A missing first member fails with SourceMissing instead.) |
| Mover.MoveGroupPlaces | bin/categorizer.py:97-104 | Suppose a group's destination is vacant, and its members are distinct, present in the folder and not the key itself. Then the group is moved completely. Its directory then holds its former children plus the members, and everything else is unchanged. |
| Mover.MoveAllPlaces | bin/categorizer.py:90-104 | Suppose the keys are distinct, no file is in two groups or twice in one group, and every member is present in the folder and is not itself a key. Suppose also that every destination is vacant. Then do_move finishes without fault. Every key then names a directory holding its former children plus its group's members, no member remains at the top level, and all other names are untouched. |
| Mover.MoveAllAppend | bin/categorizer.py:97-104 | Moving groups a followed by b means moving a, then, unless that faulted, moving b from where a left off. |
| Mover.MoveFilesFrame | bin/categorizer.py:103-104 | Whether or not a rename fails, the loop leaves every name other than the directory and the members exactly as it was. |
| Mover.MoveAllFrame | bin/categorizer.py:97-104 | Whether or not a rename fails, do_move leaves every name that is neither a key nor a member exactly as it was. |
| Mover.BlockedKeyFails | bin/categorizer.py:99-104 | When the next group's key names a regular file, do_move stops with a fault in that group. |
| Mover.BlockedGroupFails | bin/categorizer.py:97-104 | A group whose key names a regular file stops do_move, provided no earlier group uses that name as a key or moves it. Either an earlier group fails first, or that group does. |
| Categorizer.Categorize | bin/categorizer.py:140-143 | No ensures: the whole run, yielding the printed lines, the target's final state and the exit status. Its properties are stated by the Categorizer lemmas below. |
| Categorizer.InvalidTargetExits | bin/categorizer.py:22-29 | A missing folder prints `No such folder: <path>`, and a path naming a file prints `<path> is a file.`. Both exit with status 1 and change nothing. |
| Categorizer.SimulationChangesNothing | bin/categorizer.py:140-143 | With `-s` the folder is unchanged, the run succeeds, and the output is the preview of the grouped eligible files. |
| Categorizer.PreviewLength | bin/categorizer.py:140 | Whatever the move does, a run on a folder prints one line per distinct time string plus one per eligible file. |
| Categorizer.GroupingMovable | bin/categorizer.py:140-143 | Suppose no time string names a regular file of the folder, and a directory named by a time string holds no entry, of any kind, named like an eligible file stamped with it. Then the grouping of an os.listdir listing meets do_move's conditions for running to the end. This condition is sufficient, not necessary: a file that blocks a later group's name may be moved away by an earlier group. |
| Categorizer.RunMovesEveryFile | bin/categorizer.py:140-143 | Without `-s`, on such a folder, the run exits 0. Every eligible file then sits, unchanged, in the directory named by its time string and is gone from the top level. Every existing subdirectory keeps its contents, and every other name is untouched. Folders outside the condition may also succeed; this lemma does not say which. |
| Categorizer.SelfNamedFileFails | bin/categorizer.py:140-143 | Without `-s`, an eligible file whose time string is its own name makes the run exit with status 1, after the full preview has been printed. |
| Categorizer.TwoMonths | bin/categorizer.py:140-143 | On a.txt (January 2024) and b.txt (February 2024) the run prints `202401:`, `  - a.txt`, `202402:`, `  - b.txt` and exits 0. The folder ends holding exactly `202401/a.txt` and `202402/b.txt`. |

## Left out

- The stamp (strftime of `datetime.fromtimestamp(os.path.getmtime(...))`, lines 38-47) is an abstract function of the file name: clocks, time zones and the strftime format language are not modelled.
- The order of os.listdir is an input; the model does not pick one.
- Argument parsing and its defaults (lines 107-138) are not modelled. The folder path, the stamp function and the simulation flag are fields of `Options`.
- generate_time_string (lines 50-57) is never called and is not modelled.
- The folder is scanned and grouped a second time before moving (line 143). With no other process touching the folder, that scan yields the same grouping, so the model computes it once. Concurrent changes between the scans are not modelled.
- Time strings and file names are treated as single path components. A time string that is empty, `.` or `..`, or that contains `/`, is not modelled. For example, an empty date format makes strftime return "". `os.path.join(pwd, "")` is the folder itself, so mkdir is skipped and each rename is a no-op from `pwd/f` to `pwd/f`, and the run exits 0 with the folder unchanged. The model instead creates an entry named "" and moves every file into it.
- Mover.Rename: an existing destination inside the directory is always a fault. POSIX os.rename would silently replace a destination regular file; that platform difference is not modelled.
- Mover.MakeDir: mkdir never fails. Permission errors and other operating-system errors are not modelled.
- os.path.getmtime failing for a file that vanished after listing is not modelled (the stamp is total).
- Categorizer.Categorize: an uncaught exception from os.rename is modelled as exit status 1 with the preview already printed. The traceback text and the standard error stream are not modelled.
- Names are compared exactly, as on a case-sensitive filesystem, with no case folding and no Unicode normalisation. On a case-insensitive filesystem (the Windows and macOS defaults) `os.path.exists` at line 99 and `os.rename` at line 104 can match a name that differs only in case or normalisation. There a file `Jan` makes line 99 skip creating `jan`, and the renames into `jan` then fail; the model treats `Jan` and `jan` as unrelated names.
- Each element of `Run.output` stands for one `print` call, not one physical line. A file name or time string that contains a newline prints more lines than Report.Render and Categorizer.PreviewLength count.
- Names are sequences of Unicode scalar values, and printing never fails. The script can fail there in two ways. On Linux with a UTF-8 locale, os.listdir at line 31 turns a name whose bytes are not valid UTF-8 (such as `caf\xe9.txt`) into a string holding a lone surrogate, which a Dafny `char` cannot hold. On Windows with standard output redirected to a file, output is encoded in the locale code page, so a name with a character outside it cannot be printed. In both cases the `print` at line 87 (or 85) raises UnicodeEncodeError inside line 140. The run then exits 1 after a partial preview and moves nothing, whereas the model prints the whole preview, moves every file and, under Categorizer.RunMovesEveryFile's conditions, exits 0.
- Symbolic links, permissions and file contents are not modelled; a file is an opaque `File` node that moves unchanged.
- Paths that exist but are neither regular files nor directories (FIFOs, sockets, devices) are not modelled. As the target, such a path makes os.listdir at line 31 raise, and the run exits 1 with a traceback. Inside the folder, such an entry is skipped by the `isfile` test.

=== FILE: categorizer.dfy ===
/** The script's entry point: preview the grouping, then move the files unless simulating. */
module Categorizer {
  import opened Wrappers
  import opened Seqs
  import opened FileSystem
  import opened Listing
  import opened Grouping
  import opened Report
  import opened Mover

  /** The parsed command line. `stamp` is what the date format makes of each file's modification
      time; `simulation` is the `-s` flag. */
  datatype Options = Options(folder: string, stamp: string -> string, simulation: bool)

  /** What a run leaves behind: the strings printed (one per `print` call), the target path's new
      state, the exit status. */
  datatype Run = Run(output: seq<string>, target: Target, status: int)

  /** Lines 140-143. `listing` is the order in which os.listdir yields the folder's names. The
      folder is scanned again before moving; with nothing else changing it, that second scan yields
      the same grouping as the first, so the grouping is computed once. An uncaught rename error
      ends the process with status 1 after the preview has been printed. */
  function Categorize(opts: Options, t: Target, listing: seq<string>): Run
  {
    match FileList(t, listing)
    case Failure(e) => Run([ExitMessage(opts.folder, e)], t, 1)
    case Success(files) =>
      var groups := GroupByDate(files, opts.stamp);
      var preview := Render(groups);
      if opts.simulation then Run(preview, t, 0)
      else
        var o := MoveAll(t.entries, groups);
        Run(preview, Directory(o.entries), if o.fault.None? then 0 else 1)
  }

  /** `listing` names every entry of `d` exactly once, as os.listdir does. */
  ghost predicate ListingOf(d: Dir, listing: seq<string>)
  {
    Distinct(listing) && forall n :: n in d <==> n in listing
  }

  /** `n` is the time string of some file the run categorizes. */
  ghost predicate IsStamp(d: Dir, stamp: string -> string, n: string)
  {
    exists f :: Eligible(d, f) && stamp(f) == n
  }

  /** No time string names a regular file of the folder, and a directory that a time string names
      holds no entry named like a file stamped with it. This is sufficient for a complete run, not
      necessary: a file that blocks a later group's name may itself be moved away first. */
  ghost predicate Unobstructed(d: Dir, stamp: string -> string)
  {
    forall f :: Eligible(d, f) && stamp(f) in d ==>
      d[stamp(f)].Subdir? && f !in d[stamp(f)].children
  }

  /** A missing folder, or a path naming a regular file, prints one message and exits with status 1
      before anything is listed, grouped or moved. */
  lemma InvalidTargetExits(opts: Options, t: Target, listing: seq<string>)
    requires !t.Directory?
    ensures var r := Categorize(opts, t, listing);
            && r.status == 1
            && r.target == t
            && (t.Missing? ==> r.output == ["No such folder: " + opts.folder])
            && (t.RegularFile? ==> r.output == [opts.folder + " is a file."])
  {
  }

  /** With `-s` nothing on disk changes; the run prints the preview of the folder's eligible files
      and succeeds. */
  lemma SimulationChangesNothing(opts: Options, d: Dir, listing: seq<string>)
    requires opts.simulation
    ensures var r := Categorize(opts, Directory(d), listing);
            && r.target == Directory(d)
            && r.status == 0
            && r.output == Render(GroupByDate(KeepFiles(d, listing), opts.stamp))
  {
  }

  /** Whatever happens afterwards, a run on a folder prints one line per distinct time string and
      one per eligible file. */
  lemma PreviewLength(opts: Options, d: Dir, listing: seq<string>)
    ensures var files := KeepFiles(d, listing);
            |Categorize(opts, Directory(d), listing).output| == |set f | f in files :: opts.stamp(f)| + |files|
  {
    PreviewSize(KeepFiles(d, listing), opts.stamp);
  }

  /** The grouping built from an unobstructed folder listing can be moved completely. */
  lemma GroupingMovable(d: Dir, listing: seq<string>, stamp: string -> string)
    requires Distinct(listing) && Unobstructed(d, stamp)
    ensures Movable(d, GroupByDate(KeepFiles(d, listing), stamp))
  {
    var files := KeepFiles(d, listing);
    var g := GroupByDate(files, stamp);
    assert Distinct(Keys(g)) by {
      GroupKeys(files, stamp);
    }
    assert forall i :: 0 <= i < |g| ==> Distinct(g[i].files) && Vacant(d, g[i]) by {
      forall i | 0 <= i < |g| ensures Distinct(g[i].files) && Vacant(d, g[i]) {
        GroupVacant(d, listing, stamp, i);
      }
    }
    assert forall i, j, f :: 0 <= i < j < |g| && f in g[i].files ==> f !in g[j].files by {
      forall i, j, f | 0 <= i < j < |g| && f in g[i].files ensures f !in g[j].files {
        GroupsDisjoint(files, stamp, i, j);
      }
    }
    assert forall f :: f in Flatten(g) ==> f in d && f !in Keys(g) by {
      forall f | f in Flatten(g) ensures f in d && f !in Keys(g) {
        MemberNotKey(d, listing, stamp, f);
      }
    }
  }

  /** Each group of an unobstructed folder has distinct members and a vacant destination. */
  lemma GroupVacant(d: Dir, listing: seq<string>, stamp: string -> string, i: int)
    requires Distinct(listing) && Unobstructed(d, stamp)
    requires 0 <= i < |GroupByDate(KeepFiles(d, listing), stamp)|
    ensures var grp := GroupByDate(KeepFiles(d, listing), stamp)[i];
            Distinct(grp.files) && Vacant(d, grp)
  {
    var files := KeepFiles(d, listing);
    GroupContents(files, stamp, i);
    var grp := GroupByDate(files, stamp)[i];
    assert grp.files[0] in grp.files;
  }

  /** Two different groups share no member. */
  lemma GroupsDisjoint(files: seq<string>, stamp: string -> string, i: int, j: int)
    requires 0 <= i < j < |GroupByDate(files, stamp)|
    ensures forall f :: f in GroupByDate(files, stamp)[i].files ==> f !in GroupByDate(files, stamp)[j].files
  {
    var g := GroupByDate(files, stamp);
    GroupKeys(files, stamp);
    GroupContents(files, stamp, i);
    GroupContents(files, stamp, j);
    assert Keys(g)[i] != Keys(g)[j];
  }

  /** A member of the grouping is an entry of the folder and never a time string of it. */
  lemma MemberNotKey(d: Dir, listing: seq<string>, stamp: string -> string, f: string)
    requires Unobstructed(d, stamp)
    requires f in Flatten(GroupByDate(KeepFiles(d, listing), stamp))
    ensures f in d && f !in Keys(GroupByDate(KeepFiles(d, listing), stamp))
  {
    var files := KeepFiles(d, listing);
    var g := GroupByDate(files, stamp);
    GroupMembers(files, stamp);
    assert f in multiset(Flatten(g));
    assert f in files;
    GroupKeys(files, stamp);
  }

  /** A run without `-s` on an unobstructed folder succeeds; afterwards every eligible file sits,
      unchanged, in the directory named by its time string and no longer at the top level, every
      subdirectory keeps its former contents, and all other entries are untouched. */
  lemma RunMovesEveryFile(opts: Options, d: Dir, listing: seq<string>)
    requires !opts.simulation
    requires ListingOf(d, listing) && Unobstructed(d, opts.stamp)
    ensures var r := Categorize(opts, Directory(d), listing);
            && r.status == 0
            && r.target.Directory?
            && (forall f :: Eligible(d, f) ==>
                  && f !in r.target.entries
                  && opts.stamp(f) in r.target.entries
                  && r.target.entries[opts.stamp(f)].Subdir?
                  && f in r.target.entries[opts.stamp(f)].children
                  && r.target.entries[opts.stamp(f)].children[f] == d[f])
            && (forall n, c :: n in d && d[n].Subdir? && c in d[n].children ==>
                  && n in r.target.entries
                  && r.target.entries[n].Subdir?
                  && c in r.target.entries[n].children
                  && r.target.entries[n].children[c] == d[n].children[c])
            && (forall n :: !Eligible(d, n) && !IsStamp(d, opts.stamp, n) ==> Same(d, r.target.entries, n))
  {
    var stamp := opts.stamp;
    var files := KeepFiles(d, listing);
    var g := GroupByDate(files, stamp);
    GroupingMovable(d, listing, stamp);
    MoveAllPlaces(d, g);
    var d' := MoveAll(d, g).entries;
    assert Categorize(opts, Directory(d), listing) == Run(Render(g), Directory(d'), 0);
    forall f | Eligible(d, f)
      ensures f !in d' && stamp(f) in d' && d'[stamp(f)].Subdir?
      ensures f in d'[stamp(f)].children && d'[stamp(f)].children[f] == d[f]
    {
      FilePlaced(d, listing, stamp, d', f);
    }
    forall n, c | n in d && d[n].Subdir? && c in d[n].children
      ensures n in d' && d'[n].Subdir? && c in d'[n].children && d'[n].children[c] == d[n].children[c]
    {
      SubdirKept(d, listing, stamp, d', n, c);
    }
    forall n | !Eligible(d, n) && !IsStamp(d, stamp, n) ensures Same(d, d', n) {
      OtherKept(d, listing, stamp, d', n);
    }
  }

  /** An eligible file ends up, unchanged, inside the directory named by its time string. */
  lemma FilePlaced(d: Dir, listing: seq<string>, stamp: string -> string, d': Dir, f: string)
    requires ListingOf(d, listing)
    requires Placed(d, GroupByDate(KeepFiles(d, listing), stamp), d')
    requires Eligible(d, f)
    ensures f !in d' && stamp(f) in d' && d'[stamp(f)].Subdir?
    ensures f in d'[stamp(f)].children && d'[stamp(f)].children[f] == d[f]
  {
    var files := KeepFiles(d, listing);
    var g := GroupByDate(files, stamp);
    GroupKeys(files, stamp);
    assert f in files;
    assert stamp(f) in Keys(g);
    var i :| 0 <= i < |g| && Keys(g)[i] == stamp(f);
    GroupContents(files, stamp, i);
    FlattenMember(g, f);
  }

  /** A subdirectory of the folder keeps every entry it held. */
  lemma SubdirKept(d: Dir, listing: seq<string>, stamp: string -> string, d': Dir, n: string, c: string)
    requires Unobstructed(d, stamp)
    requires Placed(d, GroupByDate(KeepFiles(d, listing), stamp), d')
    requires n in d && d[n].Subdir? && c in d[n].children
    ensures n in d' && d'[n].Subdir? && c in d'[n].children && d'[n].children[c] == d[n].children[c]
  {
    var files := KeepFiles(d, listing);
    var g := GroupByDate(files, stamp);
    GroupMembers(files, stamp);
    assert n !in files;
    assert n !in Flatten(g) by {
      assert n !in multiset(files);
    }
    if n in Keys(g) {
      var i :| 0 <= i < |g| && Keys(g)[i] == n;
      GroupContents(files, stamp, i);
      assert c !in Incoming(d, g[i].files);
    }
  }

  /** An entry that is neither categorized nor a time string is untouched. */
  lemma OtherKept(d: Dir, listing: seq<string>, stamp: string -> string, d': Dir, n: string)
    requires Placed(d, GroupByDate(KeepFiles(d, listing), stamp), d')
    requires !Eligible(d, n) && !IsStamp(d, stamp, n)
    ensures Same(d, d', n)
  {
    var files := KeepFiles(d, listing);
    var g := GroupByDate(files, stamp);
    GroupMembers(files, stamp);
    GroupKeys(files, stamp);
    assert n !in Flatten(g) by {
      assert n !in multiset(files);
    }
  }

  /** A file named exactly like its own time string blocks its group: the directory is not
      created because the name exists, the rename into it fails, and a run without `-s` exits
      with status 1 after printing the full preview. */
  lemma SelfNamedFileFails(opts: Options, d: Dir, listing: seq<string>, f: string)
    requires !opts.simulation
    requires f in listing && Eligible(d, f) && opts.stamp(f) == f
    ensures var r := Categorize(opts, Directory(d), listing);
            && r.status == 1
            && r.output == Render(GroupByDate(KeepFiles(d, listing), opts.stamp))
  {
    SelfNamedMoveFails(d, listing, opts.stamp, f);
  }

  /** do_move on the grouping of such a folder stops with a fault. */
  lemma SelfNamedMoveFails(d: Dir, listing: seq<string>, stamp: string -> string, f: string)
    requires f in listing && Eligible(d, f) && stamp(f) == f
    ensures MoveAll(d, GroupByDate(KeepFiles(d, listing), stamp)).fault.Some?
  {
    var files := KeepFiles(d, listing);
    var g := GroupByDate(files, stamp);
    assert f in Keys(g) by {
      GroupKeys(files, stamp);
    }
    var i :| 0 <= i < |g| && Keys(g)[i] == f;
    BlockedPrefix(files, stamp, i);
    GroupContents(files, stamp, i);
    BlockedGroupFails(d, g, i);
  }

  /** The groups before the one keyed by a self-named file neither use its name as a key nor
      hold it as a member. */
  lemma BlockedPrefix(files: seq<string>, stamp: string -> string, i: int)
    requires 0 <= i < |GroupByDate(files, stamp)|
    requires var k := GroupByDate(files, stamp)[i].key; stamp(k) == k
    ensures var g := GroupByDate(files, stamp);
            && g[i].key !in Keys(g[..i])
            && g[i].key !in Flatten(g[..i])
  {
    var g := GroupByDate(files, stamp);
    var f := g[i].key;
    GroupKeys(files, stamp);
    assert Keys(g)[i] == f;
    forall j | 0 <= j < i ensures g[j].key != f && f !in g[j].files {
      assert Keys(g)[j] == g[j].key;
      GroupContents(files, stamp, j);
    }
    FlattenMember(g[..i], f);
  }

  /** Two files stamped January and February 2024: the preview lists each under its month, and
      the run leaves each in its month's new directory. */
  lemma TwoMonths()
    ensures var stamp := (f: string) => if f == "a.txt" then "202401" else "202402";
            var d := map["a.txt" := File, "b.txt" := File];
            var r := Categorize(Options(".", stamp, false), Directory(d), ["a.txt", "b.txt"]);
            && r.output == ["202401:", "  - a.txt", "202402:", "  - b.txt"]
            && r.status == 0
            && r.target == Directory(map["202401" := Subdir(map["a.txt" := File]),
                                         "202402" := Subdir(map["b.txt" := File])])
  {
    var stamp := (f: string) => if f == "a.txt" then "202401" else "202402";
    var d := map["a.txt" := File, "b.txt" := File];
    var g := [Group("202401", ["a.txt"]), Group("202402", ["b.txt"])];
    TwoMonthsGroups(d, stamp, g);
    TwoMonthsPreview(g);
    TwoMonthsMove(d, g);
  }

  /** The two files are both eligible and fall into two groups, January first. */
  lemma TwoMonthsGroups(d: Dir, stamp: string -> string, g: Grouping)
    requires d == map["a.txt" := File, "b.txt" := File]
    requires stamp("a.txt") == "202401" && stamp("b.txt") == "202402"
    requires g == [Group("202401", ["a.txt"]), Group("202402", ["b.txt"])]
    ensures GroupByDate(KeepFiles(d, ["a.txt", "b.txt"]), stamp) == g
  {
    TwoMonthsKeep(d);
    TwoMonthsGroup(stamp, g);
  }

  /** Neither file is hidden nor a system file. */
  lemma TwoMonthsKeep(d: Dir)
    requires d == map["a.txt" := File, "b.txt" := File]
    ensures KeepFiles(d, ["a.txt", "b.txt"]) == ["a.txt", "b.txt"]
  {
    var listing := ["a.txt", "b.txt"];
    assert Eligible(d, "a.txt") by {
      assert "a.txt" != SystemFiles[0] && "a.txt" != SystemFiles[1] && "a.txt" != SystemFiles[2];
    }
    assert Eligible(d, "b.txt") by {
      assert "b.txt" != SystemFiles[0] && "b.txt" != SystemFiles[1] && "b.txt" != SystemFiles[2];
    }
    assert listing[1..] == ["b.txt"];
    assert ["b.txt"][1..] == [];
    assert KeepFiles(d, ["b.txt"]) == ["b.txt"];
  }

  /** Grouping the two files in listing order. */
  lemma TwoMonthsGroup(stamp: string -> string, g: Grouping)
    requires stamp("a.txt") == "202401" && stamp("b.txt") == "202402"
    requires g == [Group("202401", ["a.txt"]), Group("202402", ["b.txt"])]
    ensures GroupByDate(["a.txt", "b.txt"], stamp) == g
  {
    var listing := ["a.txt", "b.txt"];
    assert listing[..1] == ["a.txt"];
    assert ["a.txt"][..0] == [];
    var g1 := [Group("202401", ["a.txt"])];
    assert GroupByDate(["a.txt"], stamp) == Add([], "202401", "a.txt") == g1;
    assert g1[1..] == [];
    assert "202401" != "202402";
    assert Add(g1, "202402", "b.txt") == [g1[0]] + Add([], "202402", "b.txt");
  }

  /** The preview lines of the two-month grouping. */
  lemma TwoMonthsPreview(g: Grouping)
    requires g == [Group("202401", ["a.txt"]), Group("202402", ["b.txt"])]
    ensures Render(g) == ["202401:", "  - a.txt", "202402:", "  - b.txt"]
  {
    assert Items(["a.txt"]) == [Item("a.txt")] && Items(["b.txt"]) == [Item("b.txt")];
    assert g[1..] == [Group("202402", ["b.txt"])];
    assert g[1..][1..] == [];
    assert Render(g[1..]) == [Header("202402")] + [Item("b.txt")] + [];
    assert Render(g) == [Header("202401")] + [Item("a.txt")] + Render(g[1..]);
    TwoMonthsLines();
  }

  /** The four lines, spelled out. */
  lemma TwoMonthsLines()
    ensures Header("202401") == "202401:" && Header("202402") == "202402:"
    ensures Item("a.txt") == "  - a.txt" && Item("b.txt") == "  - b.txt"
  {
  }

  /** Moving the two-month grouping. */
  lemma TwoMonthsMove(d: Dir, g: Grouping)
    requires d == map["a.txt" := File, "b.txt" := File]
    requires g == [Group("202401", ["a.txt"]), Group("202402", ["b.txt"])]
    ensures MoveAll(d, g) ==
              Outcome(map["202401" := Subdir(map["a.txt" := File]), "202402" := Subdir(map["b.txt" := File])], None)
  {
    var d1 := map["b.txt" := File, "202401" := Subdir(map["a.txt" := File])];
    assert MoveGroup(d, g[0]) == Outcome(d1, None) by {
      var d0 := d["202401" := Subdir(map[])];
      assert MakeDir(d, "202401") == d0;
      assert (d0 - {"a.txt"})["202401" := Subdir(map[]["a.txt" := File])] == d1;
      assert Rename(d0, "a.txt", "202401") == Success(d1);
      assert ["a.txt"][1..] == [];
    }
    var d2 := map["202401" := Subdir(map["a.txt" := File]), "202402" := Subdir(map["b.txt" := File])];
    assert MoveGroup(d1, g[1]) == Outcome(d2, None) by {
      var d0 := d1["202402" := Subdir(map[])];
      assert MakeDir(d1, "202402") == d0;
      SecondMove(d0, d2);
      assert ["b.txt"][1..] == [];
    }
    assert g[1..] == [g[1]];
    assert g[1..][1..] == [];
    assert MoveAll(d2, []) == Outcome(d2, None);
    assert MoveAll(d1, g[1..]) == Outcome(d2, None);
    assert MoveAll(d, g) == MoveAll(d1, g[1..]);
  }

  /** The second rename of the two-month scenario. */
  lemma SecondMove(d0: Dir, d2: Dir)
    requires d0 == map["b.txt" := File, "202401" := Subdir(map["a.txt" := File]), "202402" := Subdir(map[])]
    requires d2 == map["202401" := Subdir(map["a.txt" := File]), "202402" := Subdir(map["b.txt" := File])]
    ensures Rename(d0, "b.txt", "202402") == Success(d2)
  {
    assert "202401" != "202402" by {
      assert "202401"[5] != "202402"[5];
    }
    assert "b.txt" in d0 && d0["202402"] == Subdir(map[]);
    var r := (d0 - {"b.txt"})["202402" := Subdir(map[]["b.txt" := d0["b.txt"]])];
    assert (d0 - {"b.txt"}).Keys == {"202401", "202402"};
    assert r.Keys == d2.Keys;
    assert r["202401"] == d2["202401"];
    assert r == d2;
  }
}

=== FILE: filesystem.dfy ===
/** The abstract filesystem the script works on: one target directory and its entries. */
module FileSystem {

  /** A directory entry: a regular file, or a subdirectory with its own named entries. */
  datatype Node = File | Subdir(children: map<string, Node>)

  /** The entries directly inside a directory, by name. */
  type Dir = map<string, Node>

  /** What the folder path given on the command line names. */
  datatype Target = Missing | RegularFile | Directory(entries: Dir)

  /** Entry `n` is present in both directories with the same content, or absent from both. */
  predicate Same(a: Dir, b: Dir, n: string)
  {
    && (n in a <==> n in b)
    && (n in a && n in b ==> a[n] == b[n])
  }
}

=== FILE: grouping.dfy ===
/** group_by_date: the insertion-ordered dictionary from time string to the files stamped with it. */
module Grouping {
  import opened Seqs

  /** One entry of the dictionary: a time string and the files that carry it, in append order. */
  datatype Group = Group(key: string, files: seq<string>)

  /** The dictionary in iteration order (Python dicts iterate in insertion order). */
  type Grouping = seq<Group>

  /** The keys in iteration order. */
  function Keys(g: Grouping): (ks: seq<string>)
    ensures |ks| == |g|
    ensures forall i {:trigger ks[i]} :: 0 <= i < |g| ==> ks[i] == g[i].key
  {
    if |g| == 0 then [] else [g[0].key] + Keys(g[1..])
  }

  /** All members, group after group. */
  function Flatten(g: Grouping): seq<string>
  {
    if |g| == 0 then [] else g[0].files + Flatten(g[1..])
  }

  /** `dict.get(k, [])`: the members filed under `k`, or nothing. */
  function Lookup(g: Grouping, k: string): seq<string>
  {
    if |g| == 0 then [] else if g[0].key == k then g[0].files else Lookup(g[1..], k)
  }

  /** `d[k] = d.get(k, []) + [f]`: an existing key keeps its position, a new key goes last. */
  function Add(g: Grouping, k: string, f: string): (r: Grouping)
    ensures Keys(r) == if k in Keys(g) then Keys(g) else Keys(g) + [k]
    ensures forall k' :: Lookup(r, k') == if k' == k then Lookup(g, k) + [f] else Lookup(g, k')
    ensures multiset(Flatten(r)) == multiset(Flatten(g)) + multiset{f}
  {
    if |g| == 0 then [Group(k, [f])]
    else if g[0].key == k then
      var r := [Group(k, g[0].files + [f])] + g[1..];
      assert r[1..] == g[1..];
      r
    else
      var r := [g[0]] + Add(g[1..], k, f);
      assert r[1..] == Add(g[1..], k, f);
      r
  }

  /** group_by_date: each file, in list order, is appended under its time string `stamp(f)`. */
  function GroupByDate(files: seq<string>, stamp: string -> string): Grouping
  {
    if |files| == 0 then []
    else
      var last := files[|files| - 1];
      Add(GroupByDate(files[..|files| - 1], stamp), stamp(last), last)
  }

  /** Reference definition of one group: the files stamped `k`, in input order. */
  function Select(files: seq<string>, stamp: string -> string, k: string): (r: seq<string>)
    ensures forall f :: f in r <==> f in files && stamp(f) == k
    ensures IsSubsequence(r, files)
    ensures Distinct(files) ==> Distinct(r)
  {
    if |files| == 0 then []
    else
      var rest := Select(files[1..], stamp, k);
      assert files == [files[0]] + files[1..];
      if stamp(files[0]) == k then
        assert Distinct(files) ==> files[0] !in rest;
        if Distinct(files) then DistinctCons(files[0], rest); [files[0]] + rest
        else [files[0]] + rest
      else rest
  }

  /** Position of the first file stamped `k`, or `|files|` if there is none. */
  function FirstStamped(files: seq<string>, stamp: string -> string, k: string): (r: nat)
    ensures r <= |files|
  {
    if |files| == 0 then 0
    else if stamp(files[0]) == k then 0
    else 1 + FirstStamped(files[1..], stamp, k)
  }

  lemma {:induction false} SelectSnoc(files: seq<string>, x: string, stamp: string -> string, k: string)
    ensures Select(files + [x], stamp, k) == Select(files, stamp, k) + (if stamp(x) == k then [x] else [])
    decreases |files|
  {
    if |files| == 0 {
      assert files + [x] == [x];
    } else {
      assert (files + [x])[1..] == files[1..] + [x];
      SelectSnoc(files[1..], x, stamp, k);
    }
  }

  /** With distinct keys, the dictionary lookup of the i-th key yields the i-th group. */
  lemma {:induction false} LookupAt(g: Grouping, i: int)
    requires Distinct(Keys(g))
    requires 0 <= i < |g|
    ensures Lookup(g, g[i].key) == g[i].files
  {
    if i > 0 {
      assert Keys(g)[0] != Keys(g)[i];
      assert Keys(g[1..]) == Keys(g)[1..];
      LookupAt(g[1..], i - 1);
    }
  }

  /** Each key's group is exactly the input files stamped with it, in input order, and no file is
      lost or duplicated. */
  lemma {:induction false} GroupMembers(files: seq<string>, stamp: string -> string)
    ensures forall k :: Lookup(GroupByDate(files, stamp), k) == Select(files, stamp, k)
    ensures multiset(Flatten(GroupByDate(files, stamp))) == multiset(files)
    decreases |files|
  {
    if |files| > 0 {
      var init := files[..|files| - 1];
      var last := files[|files| - 1];
      assert files == init + [last];
      GroupMembers(init, stamp);
      forall k ensures Lookup(GroupByDate(files, stamp), k) == Select(files, stamp, k) {
        SelectSnoc(init, last, stamp, k);
      }
    }
  }

  /** Keys are distinct and are exactly the time strings that occur among the files. */
  lemma {:induction false} GroupKeys(files: seq<string>, stamp: string -> string)
    ensures Distinct(Keys(GroupByDate(files, stamp)))
    ensures forall k :: k in Keys(GroupByDate(files, stamp)) <==> exists f :: f in files && stamp(f) == k
    decreases |files|
  {
    if |files| > 0 {
      var init := files[..|files| - 1];
      var last := files[|files| - 1];
      assert files == init + [last];
      GroupKeys(init, stamp);
      KeysSnoc(init, last, stamp);
      KeysStep(init, last, stamp, Keys(GroupByDate(init, stamp)));
    }
  }

  /** Filing one more file keeps the keys distinct and equal to the time strings seen so far. */
  lemma KeysStep(init: seq<string>, last: string, stamp: string -> string, ks: seq<string>)
    requires Distinct(ks)
    requires forall k :: k in ks <==> exists f :: f in init && stamp(f) == k
    ensures var ks1 := if stamp(last) in ks then ks else ks + [stamp(last)];
            && Distinct(ks1)
            && forall k :: k in ks1 <==> exists f :: f in init + [last] && stamp(f) == k
  {
    var files := init + [last];
    var ks1 := if stamp(last) in ks then ks else ks + [stamp(last)];
    if stamp(last) !in ks {
      DistinctSnoc(ks, stamp(last));
    }
    forall k ensures k in ks1 <==> exists f :: f in files && stamp(f) == k {
      if k in ks1 && k != stamp(last) {
        assert k in ks;
        var f :| f in init && stamp(f) == k;
        assert f in files;
      }
      if exists f :: f in files && stamp(f) == k {
        var f :| f in files && stamp(f) == k;
        if f != last {
          assert f in init;
        }
      }
    }
  }

  /** Keys are ranked by the position where their time string first occurs among the files. */
  ghost predicate FirstOccurrenceOrder(files: seq<string>, stamp: string -> string, ks: seq<string>)
  {
    forall i, j :: 0 <= i < j < |ks| ==>
      FirstStamped(files, stamp, ks[i]) < FirstStamped(files, stamp, ks[j]) < |files|
  }

  /** Keys appear in the order in which their time strings first occur among the files. */
  lemma {:induction false} GroupOrder(files: seq<string>, stamp: string -> string)
    ensures FirstOccurrenceOrder(files, stamp, Keys(GroupByDate(files, stamp)))
    decreases |files|
  {
    if |files| > 0 {
      var init := files[..|files| - 1];
      var last := files[|files| - 1];
      assert files == init + [last];
      GroupOrder(init, stamp);
      var ks0 := Keys(GroupByDate(init, stamp));
      assert forall k :: k in ks0 <==> exists f :: f in init && stamp(f) == k by {
        GroupKeys(init, stamp);
      }
      KeysSnoc(init, last, stamp);
      FirstStampedStep(init, last, stamp, ks0);
      OrderStep(init, files, stamp(last), stamp, ks0);
    }
  }

  /** Appending a file moves no key's first occurrence, and a new key first occurs at the end. */
  lemma FirstStampedStep(init: seq<string>, last: string, stamp: string -> string, ks0: seq<string>)
    requires forall k :: k in ks0 <==> exists f :: f in init && stamp(f) == k
    ensures forall k :: k in ks0 ==> FirstStamped(init + [last], stamp, k) == FirstStamped(init, stamp, k) < |init|
    ensures stamp(last) !in ks0 ==> FirstStamped(init + [last], stamp, stamp(last)) == |init|
  {
    forall k | k in ks0 ensures FirstStamped(init + [last], stamp, k) == FirstStamped(init, stamp, k) < |init| {
      FirstStampedKept(init, last, stamp, k);
    }
    if stamp(last) !in ks0 {
      FirstStampedNew(init, last, stamp);
    }
  }

  /** Filing one more file, stamped `s`, keeps the keys in first-occurrence order. */
  lemma OrderStep(init: seq<string>, files: seq<string>, s: string, stamp: string -> string, ks0: seq<string>)
    requires |files| == |init| + 1
    requires FirstOccurrenceOrder(init, stamp, ks0)
    requires forall k :: k in ks0 ==> FirstStamped(files, stamp, k) == FirstStamped(init, stamp, k) < |init|
    requires s !in ks0 ==> FirstStamped(files, stamp, s) == |init|
    ensures FirstOccurrenceOrder(files, stamp, if s in ks0 then ks0 else ks0 + [s])
  {
    var before := k => FirstStamped(init, stamp, k);
    var after := k => FirstStamped(files, stamp, k);
    assert forall i, j :: 0 <= i < j < |ks0| ==> before(ks0[i]) < before(ks0[j]);
    RankedSnoc(ks0, s, before, after, |init|);
    var ks := if s in ks0 then ks0 else ks0 + [s];
    forall i, j | 0 <= i < j < |ks|
      ensures FirstStamped(files, stamp, ks[i]) < FirstStamped(files, stamp, ks[j]) < |files|
    {
      assert after(ks[i]) < after(ks[j]) <= |init|;
    }
  }

  /** Filing one more file adds its time string as the last key, unless the key is already there. */
  lemma KeysSnoc(init: seq<string>, last: string, stamp: string -> string)
    ensures var ks0 := Keys(GroupByDate(init, stamp));
            Keys(GroupByDate(init + [last], stamp)) == if stamp(last) in ks0 then ks0 else ks0 + [stamp(last)]
  {
    var files := init + [last];
    assert files[..|files| - 1] == init;
  }

  /** A time string already present before the last file keeps its first occurrence. */
  lemma FirstStampedKept(init: seq<string>, last: string, stamp: string -> string, k: string)
    requires exists f :: f in init && stamp(f) == k
    ensures FirstStamped(init + [last], stamp, k) == FirstStamped(init, stamp, k) < |init|
  {
    FirstStampedFound(init, stamp, k);
    FirstStampedSnoc(init, last, stamp, k);
  }

  /** A time string first carried by the last file occurs first at the last position. */
  lemma FirstStampedNew(init: seq<string>, last: string, stamp: string -> string)
    requires !exists f :: f in init && stamp(f) == stamp(last)
    ensures FirstStamped(init + [last], stamp, stamp(last)) == |init|
  {
    FirstStampedAbsent(init, stamp, stamp(last));
    FirstStampedSnoc(init, last, stamp, stamp(last));
  }

  /** Appending a key ranked last to a list ranked in increasing order keeps it so. */
  lemma RankedSnoc(ks0: seq<string>, s: string, before: string -> int, after: string -> int, n: int)
    requires forall i, j :: 0 <= i < j < |ks0| ==> before(ks0[i]) < before(ks0[j])
    requires forall k :: k in ks0 ==> after(k) == before(k) < n
    requires s !in ks0 ==> after(s) == n
    ensures var ks := if s in ks0 then ks0 else ks0 + [s];
            forall i, j :: 0 <= i < j < |ks| ==> after(ks[i]) < after(ks[j]) <= n
  {
    var ks := if s in ks0 then ks0 else ks0 + [s];
    forall i, j | 0 <= i < j < |ks|
      ensures after(ks[i]) < after(ks[j]) <= n
    {
      assert ks[i] == ks0[i] && ks0[i] in ks0;
      if j < |ks0| {
        assert ks[j] == ks0[j] && ks0[j] in ks0;
      }
    }
  }

  /** The first occurrence is an occurrence, and nothing before it carries the time string. */
  lemma {:induction false} FirstStampedSpec(files: seq<string>, stamp: string -> string, k: string)
    ensures var r := FirstStamped(files, stamp, k);
            && (forall p :: 0 <= p < r ==> stamp(files[p]) != k)
            && (r < |files| ==> stamp(files[r]) == k)
    decreases |files|
  {
    if |files| > 0 && stamp(files[0]) != k {
      FirstStampedSpec(files[1..], stamp, k);
      var r := FirstStamped(files, stamp, k);
      forall p | 0 <= p < r ensures stamp(files[p]) != k {
        if p > 0 {
          assert files[p] == files[1..][p - 1];
        }
      }
    }
  }

  /** A time string that occurs among the files is found before the end. */
  lemma FirstStampedFound(files: seq<string>, stamp: string -> string, k: string)
    requires exists f :: f in files && stamp(f) == k
    ensures FirstStamped(files, stamp, k) < |files|
  {
    FirstStampedSpec(files, stamp, k);
    var f :| f in files && stamp(f) == k;
    var p :| 0 <= p < |files| && files[p] == f;
  }

  /** A time string that occurs nowhere is "found" at the end. */
  lemma FirstStampedAbsent(files: seq<string>, stamp: string -> string, k: string)
    requires !exists f :: f in files && stamp(f) == k
    ensures FirstStamped(files, stamp, k) == |files|
  {
    FirstStampedSpec(files, stamp, k);
  }

  /** The first occurrence of a time string does not move when a file is appended, unless the
      time string did not occur before. */
  lemma {:induction false} FirstStampedSnoc(files: seq<string>, x: string, stamp: string -> string, k: string)
    ensures FirstStamped(files + [x], stamp, k) ==
              if FirstStamped(files, stamp, k) < |files| then FirstStamped(files, stamp, k)
              else if stamp(x) == k then |files| else |files| + 1
    decreases |files|
  {
    if |files| > 0 {
      assert (files + [x])[1..] == files[1..] + [x];
      FirstStampedSnoc(files[1..], x, stamp, k);
    }
  }

  /** Every group is exactly the input files stamped with its key, kept in input order, and is
      never empty. */
  lemma GroupContents(files: seq<string>, stamp: string -> string, i: int)
    requires 0 <= i < |GroupByDate(files, stamp)|
    ensures var grp := GroupByDate(files, stamp)[i];
            && grp.files == Select(files, stamp, grp.key)
            && |grp.files| > 0
            && IsSubsequence(grp.files, files)
            && forall f :: f in grp.files <==> f in files && stamp(f) == grp.key
  {
    var g := GroupByDate(files, stamp);
    var k := g[i].key;
    assert Keys(g)[i] == k;
    assert g[i].files == Select(files, stamp, k) by {
      GroupKeys(files, stamp);
      LookupAt(g, i);
      GroupMembers(files, stamp);
    }
    assert exists f :: f in files && stamp(f) == k by {
      assert k in Keys(g);
      GroupKeys(files, stamp);
    }
    var f :| f in files && stamp(f) == k;
    assert f in g[i].files;
  }

  /** There are as many groups as distinct time strings among the files. */
  lemma GroupCount(files: seq<string>, stamp: string -> string)
    ensures |GroupByDate(files, stamp)| == |set f | f in files :: stamp(f)|
  {
    var g := GroupByDate(files, stamp);
    GroupKeys(files, stamp);
    DistinctCard(Keys(g));
    assert (set k | k in Keys(g)) == (set f | f in files :: stamp(f)) by {
      forall k | k in Keys(g) ensures k in (set f | f in files :: stamp(f)) {
        var f :| f in files && stamp(f) == k;
      }
    }
  }
}

=== FILE: listing.dfy ===
/** get_file_list: the regular, visible, non-system files of the target folder, in listing order. */
module Listing {
  import opened Wrappers
  import opened Seqs
  import opened FileSystem

  /** Operating-system metadata files that are never categorized (exact, case-sensitive names). */
  const SystemFiles: seq<string> := ["desktop.ini", "thumbs.db", ".DS_Store"]

  /** A hidden entry is one whose name starts with a dot. */
  predicate Hidden(name: string)
  {
    |name| > 0 && name[0] == '.'
  }

  /** The entry `name` of `d` is one the script categorizes. */
  predicate Eligible(d: Dir, name: string)
  {
    && name in d
    && d[name].File?
    && name !in SystemFiles
    && !Hidden(name)
  }

  /** The list comprehension over the directory listing: keeps eligible names, in order. */
  function KeepFiles(d: Dir, listing: seq<string>): (r: seq<string>)
    ensures forall x :: x in r <==> x in listing && Eligible(d, x)
    ensures forall x :: multiset(r)[x] == if Eligible(d, x) then multiset(listing)[x] else 0
    ensures IsSubsequence(r, listing)
    ensures Distinct(listing) ==> Distinct(r)
  {
    if |listing| == 0 then []
    else
      var rest := KeepFiles(d, listing[1..]);
      assert listing == [listing[0]] + listing[1..];
      if Eligible(d, listing[0]) then
        assert Distinct(listing) ==> listing[0] !in rest;
        if Distinct(listing) then DistinctCons(listing[0], rest); [listing[0]] + rest
        else [listing[0]] + rest
      else rest
  }

  /** Why get_file_list exits with status 1 before listing anything. */
  datatype ListError = NoSuchFolder | IsAFile

  /** The message printed before exiting. */
  function ExitMessage(folder: string, e: ListError): string
  {
    match e
    case NoSuchFolder => "No such folder: " + folder
    case IsAFile => folder + " is a file."
  }

  /** get_file_list(pwd): `listing` is the order in which os.listdir yields the entry names. */
  function FileList(t: Target, listing: seq<string>): (r: Result<seq<string>, ListError>)
    ensures r == Failure(NoSuchFolder) <==> t.Missing?
    ensures r == Failure(IsAFile) <==> t.RegularFile?
    ensures r.Success? ==> t.Directory? && forall x :: x in r.value <==> x in listing && Eligible(t.entries, x)
  {
    match t
    case Missing => Failure(NoSuchFolder)
    case RegularFile => Failure(IsAFile)
    case Directory(d) => Success(KeepFiles(d, listing))
  }
}

=== FILE: mover.dfy ===
/** do_move: one subdirectory per time string, and each file renamed into its subdirectory. */
module Mover {
  import opened Wrappers
  import opened Seqs
  import opened FileSystem
  import opened Grouping

  /** Why os.rename raised; the uncaught exception ends the run at that point. */
  datatype Fault =
    | SourceMissing(name: string)                  // pwd/f does not exist
    | NotADirectory(key: string)                   // pwd/k is a regular file, so pwd/k/f cannot exist
    | IntoItself(name: string)                     // f is the directory k itself
    | DestinationTaken(key: string, name: string)  // pwd/k/f already exists

  /** The folder as do_move leaves it, and the fault that stopped it part-way, if any. */
  datatype Outcome = Outcome(entries: Dir, fault: Option<Fault>)

  /** Lines 99-100: `pwd/k` is created unless some entry named `k` exists already. */
  function MakeDir(d: Dir, k: string): (r: Dir)
    ensures k in r && (k in d ==> r[k] == d[k]) && (k !in d ==> r[k] == Subdir(map[]))
    ensures forall n :: n != k ==> Same(d, r, n)
  {
    if k in d then d else d[k := Subdir(map[])]
  }

  /** Line 104: `os.rename(pwd/f, pwd/k/f)`. */
  function Rename(d: Dir, f: string, k: string): (r: Result<Dir, Fault>)
    ensures r.Success? <==> f in d && k in d && d[k].Subdir? && f != k && f !in d[k].children
    ensures r.Success? ==>
              && f !in r.value && k in r.value
              && r.value[k] == Subdir(d[k].children[f := d[f]])
              && forall n :: n != f && n != k ==> Same(d, r.value, n)
  {
    if f !in d then Failure(SourceMissing(f))
    else if k !in d || !d[k].Subdir? then Failure(NotADirectory(k))
    else if f == k then Failure(IntoItself(f))
    else if f in d[k].children then Failure(DestinationTaken(k, f))
    else Success((d - {f})[k := Subdir(d[k].children[f := d[f]])])
  }

  /** Lines 103-104: the members are renamed one after the other; the first fault stops the loop. */
  function MoveFiles(d: Dir, k: string, files: seq<string>): Outcome
    decreases |files|
  {
    if |files| == 0 then Outcome(d, None)
    else
      match Rename(d, files[0], k)
      case Failure(e) => Outcome(d, Some(e))
      case Success(d') => MoveFiles(d', k, files[1..])
  }

  /** Lines 97-104 for one key: make the directory if needed, then move the members into it. */
  function MoveGroup(d: Dir, grp: Group): Outcome
  {
    MoveFiles(MakeDir(d, grp.key), grp.key, grp.files)
  }

  /** do_move: the groups in iteration order; a fault in one group ends the whole run. */
  function MoveAll(d: Dir, g: Grouping): Outcome
    decreases |g|
  {
    if |g| == 0 then Outcome(d, None)
    else
      var o := MoveGroup(d, g[0]);
      if o.fault.Some? then o else MoveAll(o.entries, g[1..])
  }

  // ---------------------------------------------------------------------------------------------
  // Reference definitions of a successful move

  /** The entries that `files` bring along from `d`. */
  function Incoming(d: Dir, files: seq<string>): map<string, Node>
  {
    map f | f in files && f in d :: d[f]
  }

  /** What subdirectory `k` held before the run (nothing if it did not exist). */
  function ChildrenOf(d: Dir, k: string): map<string, Node>
  {
    if k in d && d[k].Subdir? then d[k].children else map[]
  }

  /** `d` once `files` have left the top level and joined directory `k` with their contents. */
  function Relocated(d: Dir, k: string, files: seq<string>): Dir
    requires k in d && d[k].Subdir?
  {
    (d - (set f | f in files))[k := Subdir(d[k].children + Incoming(d, files))]
  }

  /** Every member can be moved into the existing directory `k`: it is present, distinct from the
      other members, is not `k` itself, and `k` holds nothing of that name yet. */
  predicate Clear(d: Dir, k: string, files: seq<string>)
  {
    && k in d && d[k].Subdir?
    && Distinct(files)
    && forall f :: f in files ==> f in d && f != k && f !in d[k].children
  }

  /** The destination of group `grp` is free: no regular file occupies its name, and an existing
      directory of that name holds none of its members yet. */
  predicate Vacant(d: Dir, grp: Group)
  {
    grp.key in d ==> d[grp.key].Subdir? && forall f :: f in grp.files ==> f !in d[grp.key].children
  }

  /** Conditions under which do_move runs to the end: distinct keys, no file in two groups or twice
      in one, every member present and not itself a key, and every destination vacant. */
  predicate Movable(d: Dir, g: Grouping)
  {
    && Distinct(Keys(g))
    && (forall i :: 0 <= i < |g| ==> Distinct(g[i].files) && Vacant(d, g[i]))
    && (forall i, j, f :: 0 <= i < j < |g| && f in g[i].files ==> f !in g[j].files)
    && (forall f :: f in Flatten(g) ==> f in d && f !in Keys(g))
  }

  // ---------------------------------------------------------------------------------------------
  // Moving the members of one group

  /** Renaming the next member extends the relocation by that member. */
  lemma RenameStep(d: Dir, k: string, files: seq<string>, j: nat)
    requires j < |files| && Clear(d, k, files[..j + 1])
    ensures Clear(d, k, files[..j])
    ensures Rename(Relocated(d, k, files[..j]), files[j], k) == Success(Relocated(d, k, files[..j + 1]))
  {
    ClearPrefix(d, k, files, j);
    assert files[..j + 1] == files[..j] + [files[j]];
    RenameOne(d, k, files[..j], files[j]);
  }

  /** A prefix of movable members is movable, and the next member is not part of it. */
  lemma ClearPrefix(d: Dir, k: string, files: seq<string>, j: nat)
    requires j < |files| && Clear(d, k, files[..j + 1])
    ensures Clear(d, k, files[..j])
    ensures files[j] in d && files[j] != k && files[j] !in d[k].children && files[j] !in files[..j]
  {
    var q := files[..j + 1];
    var p := files[..j];
    assert q[j] == files[j];
    assert files[j] in q;
    forall i | 0 <= i < j ensures p[i] != files[j] {
      assert q[i] == p[i];
    }
    forall a, b | 0 <= a < b < |p| ensures p[a] != p[b] {
      assert p[a] == q[a] && p[b] == q[b];
    }
    forall f | f in p ensures f in q {
      var i :| 0 <= i < |p| && p[i] == f;
      assert q[i] == f;
    }
  }

  /** Renaming a further movable file into `k` extends the relocation by that file. */
  lemma RenameOne(d: Dir, k: string, p: seq<string>, x: string)
    requires Clear(d, k, p)
    requires x in d && x != k && x !in d[k].children && x !in p
    ensures Rename(Relocated(d, k, p), x, k) == Success(Relocated(d, k, p + [x]))
  {
    var r := Relocated(d, k, p);
    assert x in r && r[x] == d[x];
    assert x !in r[k].children;
    var children := r[k].children[x := r[x]];
    assert children == d[k].children + Incoming(d, p + [x]);
    var moved := (r - {x})[k := Subdir(children)];
    assert (set f | f in p + [x]) == (set f | f in p) + {x};
    assert moved == Relocated(d, k, p + [x]);
  }

  /** Moving a prefix of the members that can all be moved yields the relocation by that prefix. */
  lemma {:induction false} MoveFilesPrefix(d: Dir, k: string, files: seq<string>, j: nat)
    requires j <= |files| && Clear(d, k, files[..j])
    ensures MoveFiles(d, k, files) == MoveFiles(Relocated(d, k, files[..j]), k, files[j..])
  {
    if j == 0 {
      assert files[..0] == [];
      assert Incoming(d, []) == map[];
      assert (set f: string | f in []) == {};
      assert d[k].children + map[] == d[k].children;
      assert Relocated(d, k, []) == d;
      assert files[0..] == files;
    } else {
      RenameStep(d, k, files, j - 1);
      MoveFilesPrefix(d, k, files, j - 1);
      assert files[j - 1..][1..] == files[j..];
    }
  }

  /** A group whose members can all be moved is moved completely, and into nothing else. */
  lemma MoveFilesPlaces(d: Dir, k: string, files: seq<string>)
    requires Clear(d, k, files)
    ensures MoveFiles(d, k, files) == Outcome(Relocated(d, k, files), None)
  {
    assert files[..|files|] == files;
    MoveFilesPrefix(d, k, files, |files|);
  }

  /** The first member that is missing stops the loop after its predecessors have been moved. */
  lemma MoveFilesMissing(d: Dir, k: string, files: seq<string>, j: nat)
    requires j < |files| && Clear(d, k, files[..j]) && files[j] !in d
    ensures MoveFiles(d, k, files) == Outcome(Relocated(d, k, files[..j]), Some(SourceMissing(files[j])))
  {
    MoveFilesPrefix(d, k, files, j);
    assert files[j..][0] == files[j];
  }

  /** The first member whose name is taken inside `k` stops the loop after its predecessors. */
  lemma MoveFilesTaken(d: Dir, k: string, files: seq<string>, j: nat)
    requires j < |files| && Clear(d, k, files[..j])
    requires files[j] in d && files[j] != k && files[j] !in files[..j] && files[j] in d[k].children
    ensures MoveFiles(d, k, files) == Outcome(Relocated(d, k, files[..j]), Some(DestinationTaken(k, files[j])))
  {
    MoveFilesPrefix(d, k, files, j);
    assert files[j..][0] == files[j];
  }

  /** A key that names an existing regular file is not created (it "exists"), so the first rename
      into it fails and nothing changes. */
  lemma KeyIsFile(d: Dir, grp: Group)
    requires grp.key in d && d[grp.key].File?
    requires |grp.files| > 0 && grp.files[0] in d
    ensures MoveGroup(d, grp) == Outcome(d, Some(NotADirectory(grp.key)))
  {
  }

  /** One group with a vacant destination is moved completely and places that group. */
  lemma MoveGroupPlaces(d: Dir, grp: Group)
    requires Vacant(d, grp) && Distinct(grp.files)
    requires forall f :: f in grp.files ==> f in d && f != grp.key
    ensures MoveGroup(d, grp).fault == None
    ensures Placed(d, [grp], MoveGroup(d, grp).entries)
  {
    var k := grp.key;
    var d0 := MakeDir(d, k);
    assert Clear(d0, k, grp.files);
    MoveFilesPlaces(d0, k, grp.files);
    RelocatedPlaces(d, grp);
  }

  /** Relocating a group into its (possibly new) directory places that group. */
  lemma RelocatedPlaces(d: Dir, grp: Group)
    requires Vacant(d, grp)
    requires forall f :: f in grp.files ==> f in d && f != grp.key
    ensures Placed(d, [grp], Relocated(MakeDir(d, grp.key), grp.key, grp.files))
  {
    var k := grp.key;
    var d0 := MakeDir(d, k);
    var r := Relocated(d0, k, grp.files);
    assert Keys([grp]) == [k];
    assert Flatten([grp]) == grp.files;
    assert Incoming(d0, grp.files) == Incoming(d, grp.files);
    assert d0[k].children == ChildrenOf(d, k);
    assert r[k] == Subdir(ChildrenOf(d, k) + Incoming(d, grp.files));
    forall i | 0 <= i < 1
      ensures [grp][i].key in r
      ensures r[[grp][i].key] == Subdir(ChildrenOf(d, [grp][i].key) + Incoming(d, [grp][i].files))
    {
      assert [grp][i] == grp;
    }
    forall n | n !in Keys([grp]) && n !in Flatten([grp]) ensures Same(d, r, n) {
      assert n != k && n !in grp.files;
    }
  }

  // ---------------------------------------------------------------------------------------------
  // Moving all groups

  /** After the first group has been moved, the remaining groups are still movable. */
  lemma MovableTail(d: Dir, g: Grouping, d': Dir)
    requires |g| > 0 && Movable(d, g)
    requires Placed(d, [g[0]], d')
    ensures Movable(d', g[1..])
  {
    var rest := g[1..];
    assert Keys(g) == [g[0].key] + Keys(rest);
    assert Flatten(g) == g[0].files + Flatten(rest);
    assert Keys([g[0]]) == [g[0].key];
    assert Flatten([g[0]]) == g[0].files;
    forall a, b | 0 <= a < b < |Keys(rest)| ensures Keys(rest)[a] != Keys(rest)[b] {
      assert Keys(rest)[a] == Keys(g)[a + 1] && Keys(rest)[b] == Keys(g)[b + 1];
    }
    forall i | 0 <= i < |rest| ensures Distinct(rest[i].files) && Vacant(d', rest[i]) {
      assert rest[i] == g[i + 1];
      var k := rest[i].key;
      assert k != g[0].key by {
        assert Keys(g)[0] == g[0].key && Keys(g)[i + 1] == k;
      }
      assert k !in g[0].files;
      assert Same(d, d', k);
    }
    forall i, j, f | 0 <= i < j < |rest| && f in rest[i].files ensures f !in rest[j].files {
      assert rest[i] == g[i + 1] && rest[j] == g[j + 1];
    }
    forall f | f in Flatten(rest) ensures f in d' && f !in Keys(rest) {
      assert f in Flatten(g);
      assert f !in g[0].files by {
        FlattenMember(rest, f);
        var i :| 0 <= i < |rest| && f in rest[i].files;
        assert rest[i] == g[i + 1];
      }
      assert f != g[0].key;
      assert Same(d, d', f);
    }
  }

  /** A name occurs among the members exactly when it occurs in some group. */
  lemma {:induction false} FlattenMember(g: Grouping, f: string)
    ensures f in Flatten(g) <==> exists i :: 0 <= i < |g| && f in g[i].files
  {
    if |g| > 0 {
      FlattenMember(g[1..], f);
      if f in Flatten(g[1..]) {
        var i :| 0 <= i < |g[1..]| && f in g[1..][i].files;
        assert g[i + 1] == g[1..][i];
      }
      if exists i :: 0 <= i < |g| && f in g[i].files {
        var i :| 0 <= i < |g| && f in g[i].files;
        if i > 0 {
          assert g[1..][i - 1] == g[i];
        }
      }
    }
  }

  // ---------------------------------------------------------------------------------------------
  // What do_move leaves alone, whether or not it fails

  /** Renaming members into `k` touches no name other than `k` and the members. */
  lemma {:induction false} MoveFilesFrame(d: Dir, k: string, files: seq<string>, n: string)
    requires n != k && n !in files
    ensures Same(d, MoveFiles(d, k, files).entries, n)
    decreases |files|
  {
    if |files| > 0 {
      match Rename(d, files[0], k)
      case Failure(_) =>
      case Success(d') =>
        assert Same(d, d', n);
        MoveFilesFrame(d', k, files[1..], n);
    }
  }

  /** do_move touches no name that is neither a key nor a member, even when a rename fails. */
  lemma {:induction false} MoveAllFrame(d: Dir, g: Grouping, n: string)
    requires n !in Keys(g) && n !in Flatten(g)
    ensures Same(d, MoveAll(d, g).entries, n)
    decreases |g|
  {
    if |g| > 0 {
      assert Keys(g) == [g[0].key] + Keys(g[1..]);
      assert Flatten(g) == g[0].files + Flatten(g[1..]);
      var d0 := MakeDir(d, g[0].key);
      MoveFilesFrame(d0, g[0].key, g[0].files, n);
      var o := MoveGroup(d, g[0]);
      if o.fault.None? {
        MoveAllFrame(o.entries, g[1..], n);
      }
    }
  }

  /** When the next group's key names a regular file, do_move stops with a fault in that group,
      whether or not its first member is still present. */
  lemma BlockedKeyFails(d: Dir, g: Grouping)
    requires |g| > 0 && g[0].key in d && d[g[0].key].File? && |g[0].files| > 0
    ensures MoveAll(d, g).fault.Some?
  {
    assert MakeDir(d, g[0].key) == d;
    assert Rename(d, g[0].files[0], g[0].key).Failure?;
  }

  /** A group whose key names a regular file stops do_move, provided the earlier groups neither
      use that name as a key nor move it: either an earlier group fails first, or that one does. */
  lemma BlockedGroupFails(d: Dir, g: Grouping, i: int)
    requires 0 <= i < |g| && |g[i].files| > 0
    requires g[i].key in d && d[g[i].key].File?
    requires g[i].key !in Keys(g[..i]) && g[i].key !in Flatten(g[..i])
    ensures MoveAll(d, g).fault.Some?
  {
    var a, b := g[..i], g[i..];
    assert g == a + b;
    MoveAllAppend(d, a, b);
    var o := MoveAll(d, a);
    if o.fault.None? {
      MoveAllFrame(d, a, g[i].key);
      assert b[0] == g[i];
      BlockedKeyFails(o.entries, b);
    }
  }

  /** Reference definition of a completed do_move from `d` to `d'`: every key is a directory
      holding its former contents plus its group's members, no member is left at the top level, and
      every other entry of the folder is untouched. */
  ghost predicate Placed(d: Dir, g: Grouping, d': Dir)
  {
    && (forall i :: 0 <= i < |g| ==>
          && g[i].key in d'
          && d'[g[i].key] == Subdir(ChildrenOf(d, g[i].key) + Incoming(d, g[i].files)))
    && (forall f :: f in Flatten(g) ==> f !in d')
    && (forall n :: n !in Keys(g) && n !in Flatten(g) ==> Same(d, d', n))
  }

  /** do_move on a movable grouping finishes without fault and places every group. */
  lemma {:induction false} MoveAllPlaces(d: Dir, g: Grouping)
    requires Movable(d, g)
    ensures MoveAll(d, g).fault == None
    ensures Placed(d, g, MoveAll(d, g).entries)
    decreases |g|
  {
    if |g| > 0 {
      var g0 := g[0];
      var rest := g[1..];
      Apart(d, g);
      assert Flatten(g) == g0.files + Flatten(rest);
      assert Keys(g) == [g0.key] + Keys(rest);
      forall f | f in g0.files ensures f in d && f != g0.key {
        assert f in Flatten(g);
      }
      MoveGroupPlaces(d, g0);
      var o1 := MoveGroup(d, g0);
      MovableTail(d, g, o1.entries);
      MoveAllPlaces(o1.entries, rest);
      assert MoveAll(d, g) == MoveAll(o1.entries, rest);
      PlacedCompose(d, o1.entries, MoveAll(d, g).entries, g);
    }
  }

  /** The first group's key and members are neither keys nor members of the later groups. */
  lemma Apart(d: Dir, g: Grouping)
    requires |g| > 0 && Movable(d, g)
    ensures Flatten(g) == g[0].files + Flatten(g[1..])
    ensures Keys(g) == [g[0].key] + Keys(g[1..])
    ensures g[0].key !in Keys(g[1..]) && g[0].key !in Flatten(g[1..])
    ensures forall f :: f in g[0].files ==> f !in Keys(g[1..]) && f !in Flatten(g[1..])
  {
    var rest := g[1..];
    assert Flatten(g) == g[0].files + Flatten(rest);
    assert Keys(g) == [g[0].key] + Keys(rest);
    assert g[0].key !in Keys(rest) by {
      KeyApart(Keys(g));
    }
    assert g[0].key !in Flatten(rest) by {
      assert g[0].key in Keys(g);
    }
    assert forall f :: f in g[0].files ==> f !in Keys(rest) by {
      forall f | f in g[0].files ensures f !in Keys(rest) {
        assert f in Flatten(g);
      }
    }
    assert forall f :: f in g[0].files ==> f !in Flatten(rest) by {
      forall f | f in g[0].files ensures f !in Flatten(rest) {
        MemberApart(g, f);
      }
    }
  }

  /** The first of distinct keys does not recur. */
  lemma KeyApart(ks: seq<string>)
    requires |ks| > 0 && Distinct(ks)
    ensures ks[0] !in ks[1..]
  {
  }

  /** A member of the first group is in no later group. */
  lemma MemberApart(g: Grouping, f: string)
    requires |g| > 0 && f in g[0].files
    requires forall i, j, f :: 0 <= i < j < |g| && f in g[i].files ==> f !in g[j].files
    ensures f !in Flatten(g[1..])
  {
    var rest := g[1..];
    FlattenMember(rest, f);
  }

  /** Entries that agree between two directories bring along the same contents. */
  lemma IncomingSame(d: Dir, d': Dir, files: seq<string>)
    requires forall f :: f in files ==> Same(d, d', f)
    ensures Incoming(d, files) == Incoming(d', files)
  {
  }

  /** Placing the first group and then the rest places the whole grouping. */
  lemma PlacedCompose(d: Dir, d1: Dir, d2: Dir, g: Grouping)
    requires |g| > 0 && Movable(d, g)
    requires Placed(d, [g[0]], d1)
    requires Placed(d1, g[1..], d2)
    ensures Placed(d, g, d2)
  {
    var g0 := g[0];
    var rest := g[1..];
    Apart(d, g);
    assert Keys([g0]) == [g0.key];
    assert Flatten([g0]) == g0.files;
    forall i | 0 <= i < |g|
      ensures g[i].key in d2
      ensures d2[g[i].key] == Subdir(ChildrenOf(d, g[i].key) + Incoming(d, g[i].files))
    {
      if i == 0 {
        assert [g0][0] == g0;
        assert Same(d1, d2, g0.key);
      } else {
        assert g[i] == rest[i - 1];
        var k := g[i].key;
        assert Keys(rest)[i - 1] == k && Keys(g)[i] == k;
        assert k !in g0.files;
        assert Same(d, d1, k);
        forall f | f in g[i].files ensures Same(d, d1, f) {
          FlattenMember(rest, f);
          assert f in Flatten(g);
          assert f !in g0.files;
        }
        IncomingSame(d, d1, g[i].files);
      }
    }
    forall f | f in Flatten(g) ensures f !in d2 {
      if f in g0.files {
        assert Same(d1, d2, f);
      }
    }
    forall n | n !in Keys(g) && n !in Flatten(g) ensures Same(d, d2, n) {
      assert Same(d, d1, n) && Same(d1, d2, n);
    }
  }

  /** Moving a concatenation of groupings moves the first part, then (unless it failed) the second. */
  lemma {:induction false} MoveAllAppend(d: Dir, a: Grouping, b: Grouping)
    ensures MoveAll(d, a + b) ==
              var o := MoveAll(d, a);
              if o.fault.Some? then o else MoveAll(o.entries, b)
    decreases |a|
  {
    if |a| == 0 {
      assert a + b == b;
    } else {
      assert (a + b)[0] == a[0];
      assert (a + b)[1..] == a[1..] + b;
      var o1 := MoveGroup(d, a[0]);
      if o1.fault.None? {
        MoveAllAppend(o1.entries, a[1..], b);
      }
    }
  }
}

=== FILE: report.dfy ===
/** print_group_info: the preview printed before anything is moved. */
module Report {
  import opened Grouping

  /** The line that opens a group. */
  function Header(key: string): string
  {
    key + ":"
  }

  /** The line that lists one member of a group. */
  function Item(file: string): string
  {
    "  - " + file
  }

  /** One item line per file, in order. */
  function Items(files: seq<string>): (lines: seq<string>)
    ensures |lines| == |files|
    ensures forall j :: 0 <= j < |files| ==> lines[j] == Item(files[j])
  {
    if |files| == 0 then [] else [Item(files[0])] + Items(files[1..])
  }

  /** Every key in iteration order, each followed by its members. */
  function Render(g: Grouping): (lines: seq<string>)
    ensures |lines| == |g| + |Flatten(g)|
  {
    if |g| == 0 then [] else [Header(g[0].key)] + Items(g[0].files) + Render(g[1..])
  }

  /** Line number at which group `i` starts: one header per earlier group plus their members. */
  function Offset(g: Grouping, i: nat): nat
    requires i <= |g|
  {
    i + |Flatten(g[..i])|
  }

  /** Group `i`'s header sits after the lines of all earlier groups; its members' lines follow
      it, and then come the later groups. */
  lemma RenderLayout(g: Grouping, i: nat)
    requires i < |g|
    ensures Offset(g, i) < |Render(g)|
    ensures Render(g)[Offset(g, i)..] == [Header(g[i].key)] + Items(g[i].files) + Render(g[i + 1..])
  {
    RenderSuffix(g, i);
    assert g[i..][0] == g[i] && g[i..][1..] == g[i + 1..];
  }

  /** From the line where group `i` starts, the output is exactly the rendering of the groups
      from `i` on. */
  lemma {:induction false} RenderSuffix(g: Grouping, i: nat)
    requires i <= |g|
    ensures Offset(g, i) <= |Render(g)|
    ensures Render(g)[Offset(g, i)..] == Render(g[i..])
  {
    if i == 0 {
      assert g[..0] == [] && g[0..] == g;
    } else {
      var head := [Header(g[0].key)] + Items(g[0].files);
      var rest := g[1..];
      assert Render(g) == head + Render(rest);
      FlattenSplit(g, i);
      assert rest[..i - 1] == g[1..i];
      assert Offset(g, i) == |head| + Offset(rest, i - 1);
      RenderSuffix(rest, i - 1);
      assert rest[i - 1..] == g[i..];
    }
  }

  /** The members before group `i` are those of the first group followed by the rest's. */
  lemma FlattenSplit(g: Grouping, i: nat)
    requires 0 < |g| && i <= |g|
    ensures i == 0 ==> Flatten(g[..i]) == []
    ensures i > 0 ==> Flatten(g[..i]) == g[0].files + Flatten(g[1..i])
  {
    if i > 0 {
      assert g[..i][1..] == g[1..i];
    }
  }

  /** The preview of a folder has one line per distinct time string plus one line per file. */
  lemma PreviewSize(files: seq<string>, stamp: string -> string)
    ensures |Render(GroupByDate(files, stamp))| == |set f | f in files :: stamp(f)| + |files|
  {
    GroupCount(files, stamp);
    GroupMembers(files, stamp);
    assert |multiset(Flatten(GroupByDate(files, stamp)))| == |multiset(files)|;
  }
}

=== FILE: seqs.dfy ===
/** Facts about sequences shared by the listing, the grouping and the mover. */
module Seqs {

  /** No element occurs twice. */
  predicate Distinct<T(==)>(s: seq<T>)
  {
    forall i, j :: 0 <= i < j < |s| ==> s[i] != s[j]
  }

  /** `a` is obtained from `b` by deleting elements, keeping the order of the rest. */
  predicate IsSubsequence<T(==)>(a: seq<T>, b: seq<T>)
    decreases |b|
  {
    || |a| == 0
    || (&& |b| > 0
        && ((a[0] == b[0] && IsSubsequence(a[1..], b[1..])) || IsSubsequence(a, b[1..])))
  }

  /** Prepending a fresh element keeps a sequence free of repetitions. */
  lemma DistinctCons<T>(x: T, s: seq<T>)
    requires x !in s && Distinct(s)
    ensures Distinct([x] + s)
  {
  }

  /** Appending a fresh element keeps a sequence free of repetitions. */
  lemma DistinctSnoc<T>(s: seq<T>, x: T)
    requires x !in s && Distinct(s)
    ensures Distinct(s + [x])
  {
  }

  /** A sequence without repetitions has as many elements as its set of elements. */
  lemma {:induction false} DistinctCard<T>(s: seq<T>)
    requires Distinct(s)
    ensures |set x | x in s| == |s|
  {
    if |s| > 0 {
      DistinctCard(s[1..]);
      assert (set x | x in s) == {s[0]} + (set x | x in s[1..]);
      assert s[0] !in (set x | x in s[1..]);
    }
  }
}

=== FILE: wrappers.dfy ===
/** Failure-carrying values used where the script raises, exits or may fail. */
module Wrappers {

  /** An optional value. */
  datatype Option<+T> = None | Some(value: T)

  /** Either a computed value or the error that replaced it. */
  datatype Result<+T, +E> = Success(value: T) | Failure(error: E)
}
